=== FILE: README.md ===
# GPU info admin display logic, in Dafny

This project models the display logic of the `gpu_info` admin pages of the GPU task
dashboard: how a GPU's raw `processes` field becomes the short "occupants" text
(`GPUInfoAdmin.usernames`), and how the memory column renders
`"<used> / <total> MB (<pct>%)"` (`memory_usage`, present in both `GPUInfoInline`
and `GPUInfoAdmin`).

Files:

- `wrappers.dfy` — `Option` and `Result`, used for values that Python computes by raising.
- `text.dfy` — Python's `str.split(sep)` for a one-character separator and `sep.join(parts)`,
  with the round trip between them in both directions.
- `decimal.dfy` — the `'{:d}'` rendering of an integer and a reader that recovers it.
- `admin.dfy` — the snapshot datatypes (`GpuServer`, `GpuInfo`), the occupant digest
  `Usernames`, the memory formatter and its two call sites, and the lemmas about them.

The digest takes the JSON decoder as a parameter, `usernameOf: string -> Option<string>`.
It stands for `json.loads(record)['username']` used as a string, and `None` means the call
fails because of that record.
The memory formatter takes the rendered percentage as a parameter,
`percent: (int, int) -> string`, and uses it only when the division is defined.

Behaviours of the code as written that the lemmas make explicit:

- A trailing newline in `processes` adds an empty record. With one real record the call
  then fails, because the empty string is not JSON. With two real records the output
  gains a `"..."` marker (`UsernamesOneRecordTrailingNewline`, `UsernamesManyRecords` with `rest == ""`).
- A username that itself ends in `"..."` renders exactly like truncation (`MarkerIsAmbiguous`).
  Exactly, the output ends in `"..."` iff there are more than two records or the last shown
  username ends in `"..."` (`MarkerExactRule`). In particular, whenever the shown names contain
  no dot, the marker means "more than two records" (`MarkerIffMoreThanShown`).

Facts about the code that the model keeps:

- Nothing in this code computes `free` or `complete_free`. They are stored fields that
  the pages only display, so they are plain fields of `GpuInfo`.
- The display limit is fixed at two records.
- With `memory_total == 0` the code raises `ZeroDivisionError`; the model returns
  `Failure(DivisionByZero)`.

`Admin.Records` (the split at line 65) and `Admin.DigestRecords` (lines 66-72 on an
already-split field) are parts split out of `Admin.Usernames`; the rows for
`Admin.Usernames`, `Admin.RecordsOfField` and `Admin.DigestRecordsValue` state their contracts.

## Model

| member | source | states |
|---|---|---|
| Admin.Usernames | gpu_info/admin.py:63-74 | An empty field gives exactly `"-"` whatever the decoder does. Otherwise the call succeeds iff the first `min(2, n)` records decode. A failure names the first record among those that does not decode, with its position. |
| Admin.UsernamesColumn | gpu_info/admin.py:63-74 | On the snapshot's `processes` field: an empty field gives `"-"`. A non-empty one succeeds iff its first `min(2, n)` records decode. A failure names a record of that field that does not decode. |
| Admin.UsernamesColumnReadsOnlyProcesses | gpu_info/admin.py:63-64 | Two snapshots with the same `processes` field give the same occupants column. |
| Admin.ParseNames | gpu_info/admin.py:67 | Decoding a list of records succeeds iff every record decodes. On success it yields one name per record, in record order. On failure it reports the first failing position. |
| Admin.ParseNamesDetermined | gpu_info/admin.py:67 | When every record decodes to the name at its position, the list comprehension yields exactly those names. |
| Admin.ShownCount | gpu_info/admin.py:66-67 | The slice `arr[:2]` keeps `min(2, n)` records: never more than there are, and never more than two. |
| Admin.RecordsOfField | gpu_info/admin.py:65 | Splitting `processes` on `'\n'` gives newline count + 1 records, none containing a newline. Joining them with `'\n'` gives the field back, so no character is lost and the order is kept. |
| Admin.TrailingNewlineRecord | gpu_info/admin.py:65 | A trailing newline adds one empty last record. |
| Admin.UsernamesValue | gpu_info/admin.py:66-72 | When the first `min(2, n)` records decode to `names`, the result is those names in order, joined with `", "`, plus `"..."` iff `n > 2`. |
| Admin.DigestRecordsValue | gpu_info/admin.py:66-72 | The same value statement for a field already split into records. |
| Admin.UsernamesReadsOnlyShownRecords | gpu_info/admin.py:66-67 | Two decoders that agree on the first two records give the same result, so records at index 2 and beyond are never decoded. |
| Admin.UsernamesOneRecord | gpu_info/admin.py:67-68 | A single newline-free record yields exactly its username, with no separator and no marker. |
| Admin.UsernamesTwoRecords | gpu_info/admin.py:67-71 | Exactly two records yield `"u, v"` with no marker. |
| Admin.UsernamesManyRecords | gpu_info/admin.py:67-71 | Three or more records yield `"u, v..."` from the first two, whatever follows the second newline, including malformed records. |
| Admin.UsernamesOneRecordTrailingNewline | gpu_info/admin.py:65-67 | One record plus a trailing newline succeeds iff both that record and the empty string decode. |
| Admin.MarkerExactRule | gpu_info/admin.py:68-71 | A successful digest ends in `"..."` iff there are more than two records or the last shown username ends in `"..."`. |
| Admin.JoinEndsWithMarker | gpu_info/admin.py:68 | One or two names joined with `", "` end in `"..."` iff the last name does. |
| Admin.MarkerIffMoreThanShown | gpu_info/admin.py:70-71 | When the shown names contain no dot, the result ends in `"..."` iff there are more than two records. |
| Admin.MarkerIsAmbiguous | gpu_info/admin.py:68-71 | Two records whose second username ends in `"..."` render the same as three or more records. |
| Admin.NoDotInJoin | gpu_info/admin.py:68 | Joining dot-free names with a dot-free separator adds no dot. |
| Admin.FormatMemoryUsage | gpu_info/admin.py:17 | The formatter fails iff `memory_total == 0`. Otherwise the text starts with `"<used> / <total> MB ("` in `'{:d}'` form and ends with `"%)"`. |
| Admin.MemoryUsageRoundTrip | gpu_info/admin.py:17 | Reading the rendered text back recovers `(used, total)` exactly, whatever the percentage text is. |
| Admin.InlineMemoryUsage | gpu_info/admin.py:14-17 | The inline table's memory column fails iff the snapshot's `memory_total` is 0. Otherwise its text starts with the snapshot's used and total memory in `'{:d}'` form. |
| Admin.AdminMemoryUsage | gpu_info/admin.py:79-82 | The GPU list page's memory column has the same contract as the inline one. |
| Admin.MemoryColumnsReadBack | gpu_info/admin.py:14-17 | When `memory_total` is not 0, both memory columns succeed, and their text reads back as the snapshot's used and total memory. |
| Admin.MemoryUsageCopiesAgree | gpu_info/admin.py:79-82 | The two copies of `memory_usage` give the same result on every snapshot. |
| Text.Split | gpu_info/admin.py:65 | `str.split` yields at least one piece, and no piece contains the separator. |
| Text.Join | gpu_info/admin.py:68 | `", ".join` starts with the first name and ends with the last, and puts the separator only between neighbouring names, never before the first or after the last. The join of nothing is empty. |
| Text.SplitCount | gpu_info/admin.py:65 | The number of pieces is the number of separators plus one. |
| Text.SplitJoin | gpu_info/admin.py:65 | Joining the pieces with the separator restores the original string. |
| Text.JoinSplit | gpu_info/admin.py:65 | Separator-free pieces, joined and then split, come back unchanged. |
| Text.SplitFirst | gpu_info/admin.py:65 | A separator-free head followed by the separator is the first piece, whatever follows. |
| Text.SplitNoSeparator | gpu_info/admin.py:65 | A string with no separator splits into itself alone. |
| Text.SplitTrailingSeparator | gpu_info/admin.py:65 | A trailing separator adds a trailing empty piece. |
| Text.JoinCharacters | gpu_info/admin.py:68 | Every character of a join comes from the separator or from one of the pieces. |
| Decimal.NatToDecimal | gpu_info/admin.py:17 | `'{:d}'` of a natural number is a non-empty run of digits. It has no leading zero unless the number is 0. |
| Decimal.IntToDecimal | gpu_info/admin.py:17 | `'{:d}'` of an integer starts with `-` iff the integer is negative, and all other characters are digits. |
| Decimal.DecimalValue | gpu_info/admin.py:17 | The rendered digits denote the number rendered. |
| Decimal.ReadIntOfDecimal | gpu_info/admin.py:17 | Reading a rendered integer followed by a non-digit recovers the integer and the rest of the text. |

## Left out

- Django admin configuration has no behaviour of its own and is not modelled. This covers registration, inline and model-admin options, field lists, filters, search, ordering, the CSS `Media` class and `short_description` labels.
- The permission hooks and `get_extra` are not modelled. They are constant answers or a check of the requesting user.
- `json.loads` is a library call. It appears as the `usernameOf` parameter. The model does not tell apart the ways it can raise: invalid JSON, a record that is not an object, a missing `username` key, or a non-string username that `", ".join` rejects.
- Admin.FormatMemoryUsage: the `OverflowError` that the float division `memory_used / memory_total` raises when the quotient is outside the float range is not modelled, because the memory fields are bounded database integers. The model fails only when `memory_total == 0`.
- Admin.InlineMemoryUsage: the `OverflowError` of the float division at line 17 is not modelled, for the same reason.
- Admin.AdminMemoryUsage: the `OverflowError` of the float division at line 82 is not modelled, for the same reason.
- Admin.FormatMemoryUsage: the percentage text (`{:.0f}` of a floating-point division) is a parameter. The model does not state its rounding or that it lies between 0 and 100.
- The types of the model fields come from `gpu_info/models.py`, which is not part of this model. Memory amounts are taken to be integers, so the `ValueError` that `'{:d}'` raises on a non-integer is not modelled.
- How `free`, `complete_free`, `processes` and the memory fields are produced is not modelled. The collector and the database that fill them are not part of this model.
- The code does not check `memory_total > 0` or `memory_used <= memory_total`, so the model does not assume them.
- Admin.Usernames: a non-string username does not make `json.loads(record)['username']` raise; the `", ".join` at line 68 raises after both shown records are decoded. So when record 0 has a non-string username and record 1 is not JSON, Python reports record 1's error, while `MalformedRecord` names record 0. Whether the call fails is the same in both.

=== FILE: admin.dfy ===
/** The display logic of the GPU-info admin pages: the occupant digest shown in the
    "usernames" column and the memory-usage column of the per-GPU listings. */
module Admin {
  import opened Wrappers
  import opened Text
  import opened Decimal

  /** A physical host, as the admin pages display it. */
  datatype GpuServer = GpuServer(ip: string, hostname: string, valid: bool, canUse: bool)

  /** One GPU device's latest snapshot. `free` and `completeFree` are stored flags
      that the pages only display; `processes` holds one serialized record per line. */
  datatype GpuInfo = GpuInfo(
    uuid: string,
    index: int,
    name: string,
    utilization: int,
    memoryTotal: int,
    memoryUsed: int,
    server: GpuServer,
    processes: string,
    free: bool,
    completeFree: bool,
    updateAt: int
  )

  // ----- Occupant digest -----

  const NoOccupants: string := "-"
  const RecordDelimiter: char := '\n'
  const ShownLimit: nat := 2
  const NameSeparator: string := ", "
  const MoreMarker: string := "..."

  /** The call failed because of record `record`, at position `index` of the field:
      it is not valid JSON, is not a JSON object, has no `username` key, or its
      username is not a string. */
  datatype DigestError = MalformedRecord(index: nat, record: string)

  /** The per-process records of a `processes` field, in field order. */
  function Records(processes: string): seq<string>
  {
    Split(processes, RecordDelimiter)
  }

  /** How many of `n` records are displayed. */
  function ShownCount(n: nat): (k: nat)
    ensures k <= n && k <= ShownLimit
    ensures k == n || k == ShownLimit
  {
    if n < ShownLimit then n else ShownLimit
  }

  /** Decodes the username of every record in order, stopping at the first record
      that fails; a failure reports that record's position. */
  function ParseNames(records: seq<string>, usernameOf: string -> Option<string>): (r: Result<seq<string>, nat>)
    ensures r.Success? <==> forall i :: 0 <= i < |records| ==> usernameOf(records[i]).Some?
    ensures r.Success? ==> |r.value| == |records|
    ensures r.Success? ==> forall i :: 0 <= i < |records| ==> usernameOf(records[i]) == Some(r.value[i])
    ensures r.Failure? ==> r.error < |records| && usernameOf(records[r.error]).None?
    ensures r.Failure? ==> forall j :: 0 <= j < r.error ==> usernameOf(records[j]).Some?
    decreases |records|
  {
    if |records| == 0 then Success([])
    else
      match usernameOf(records[0])
      case None => Failure(0)
      case Some(name) =>
        match ParseNames(records[1..], usernameOf)
        case Failure(i) => Failure(i + 1)
        case Success(names) => Success([name] + names)
  }

  /** The occupant digest of a `processes` field. `usernameOf` stands for
      `json.loads(record)['username']` used as a string; `None` means the call fails
      because of that record. Only the first two records are decoded, and the call
      fails exactly when one of those does; the failure names the first such record. */
  function Usernames(processes: string, usernameOf: string -> Option<string>): (r: Result<string, DigestError>)
    ensures processes == "" ==> r == Success(NoOccupants)
    ensures processes != "" ==>
      var recs := Records(processes);
      (r.Success? <==> forall i :: 0 <= i < ShownCount(|recs|) ==> usernameOf(recs[i]).Some?)
    ensures r.Failure? ==>
      var recs := Records(processes);
      && processes != ""
      && r.error.index < ShownCount(|recs|)
      && r.error.record == recs[r.error.index]
      && usernameOf(r.error.record).None?
      && forall j :: 0 <= j < r.error.index ==> usernameOf(recs[j]).Some?
  {
    if processes != "" then DigestRecords(Records(processes), usernameOf)
    else Success(NoOccupants)
  }

  /** `GPUInfoAdmin.usernames(obj)`: the occupant digest of a snapshot reads only
      its `processes` field. */
  function UsernamesColumn(info: GpuInfo, usernameOf: string -> Option<string>): (r: Result<string, DigestError>)
    ensures info.processes == "" ==> r == Success(NoOccupants)
    ensures info.processes != "" ==>
      (r.Success? <==> forall i :: 0 <= i < ShownCount(|Records(info.processes)|) ==> usernameOf(Records(info.processes)[i]).Some?)
    ensures r.Failure? ==> r.error.record in Records(info.processes) && usernameOf(r.error.record).None?
  {
    Usernames(info.processes, usernameOf)
  }

  /** Two snapshots with the same `processes` field show the same occupants,
      whatever their other fields hold. */
  lemma UsernamesColumnReadsOnlyProcesses(a: GpuInfo, b: GpuInfo, usernameOf: string -> Option<string>)
    requires a.processes == b.processes
    ensures UsernamesColumn(a, usernameOf) == UsernamesColumn(b, usernameOf)
  {
  }

  /** The digest of a non-empty field, given its records. */
  function DigestRecords(recs: seq<string>, usernameOf: string -> Option<string>): Result<string, DigestError>
  {
    match ParseNames(recs[..ShownCount(|recs|)], usernameOf)
    case Failure(i) => Failure(MalformedRecord(i, recs[i]))
    case Success(names) =>
      var res := Join(names, NameSeparator);
      Success(if |recs| > ShownLimit then res + MoreMarker else res)
  }

  /** Splitting the field keeps every character and the order of the records:
      there is one record more than there are newlines, and joining the records
      with newlines gives the field back. */
  lemma {:induction false} RecordsOfField(processes: string)
    ensures |Records(processes)| == Occurrences(processes, RecordDelimiter) + 1
    ensures Join(Records(processes), [RecordDelimiter]) == processes
    ensures forall i :: 0 <= i < |Records(processes)| ==> RecordDelimiter !in Records(processes)[i]
  {
    SplitCount(processes, RecordDelimiter);
    SplitJoin(processes, RecordDelimiter);
  }

  /** A newline at the end of the field adds an empty last record. */
  lemma TrailingNewlineRecord(t: string)
    ensures Records(t + [RecordDelimiter]) == Records(t) + [""]
  {
    SplitTrailingSeparator(t, RecordDelimiter);
  }

  /** The value of a successful digest: the usernames of the first
      `min(2, record count)` records in field order, joined with ", ", followed by
      "..." exactly when there are more than two records. */
  lemma UsernamesValue(processes: string, usernameOf: string -> Option<string>, names: seq<string>)
    requires processes != ""
    requires |names| == ShownCount(|Records(processes)|)
    requires forall i :: 0 <= i < |names| ==> usernameOf(Records(processes)[i]) == Some(names[i])
    ensures Usernames(processes, usernameOf)
         == Success(Join(names, NameSeparator) + (if |Records(processes)| > ShownLimit then MoreMarker else ""))
  {
    DigestRecordsValue(Records(processes), usernameOf, names);
  }

  /** `UsernamesValue` for a given list of records. */
  lemma DigestRecordsValue(recs: seq<string>, usernameOf: string -> Option<string>, names: seq<string>)
    requires |names| == ShownCount(|recs|)
    requires forall i :: 0 <= i < |names| ==> usernameOf(recs[i]) == Some(names[i])
    ensures DigestRecords(recs, usernameOf)
         == Success(Join(names, NameSeparator) + (if |recs| > ShownLimit then MoreMarker else ""))
  {
    var shown := recs[..ShownCount(|recs|)];
    assert forall i :: 0 <= i < |shown| ==> usernameOf(shown[i]) == Some(names[i]) by {
      forall i | 0 <= i < |shown|
        ensures usernameOf(shown[i]) == Some(names[i])
      {
        assert shown[i] == recs[i];
      }
    }
    ParseNamesDetermined(shown, usernameOf, names);
    var joined := Join(names, NameSeparator);
    if |recs| > ShownLimit {
      assert DigestRecords(recs, usernameOf) == Success(joined + MoreMarker);
    } else {
      assert DigestRecords(recs, usernameOf) == Success(joined);
      assert joined + "" == joined;
    }
  }

  /** Decoding succeeds with the given names when every record decodes to the
      name at its position. */
  lemma ParseNamesDetermined(records: seq<string>, usernameOf: string -> Option<string>, names: seq<string>)
    requires |names| == |records|
    requires forall i :: 0 <= i < |records| ==> usernameOf(records[i]) == Some(names[i])
    ensures ParseNames(records, usernameOf) == Success(names)
  {
    var r := ParseNames(records, usernameOf);
    assert r.Success?;
    assert forall i :: 0 <= i < |names| ==> Some(r.value[i]) == usernameOf(records[i]) == Some(names[i]);
    assert r.value == names;
  }

  /** Only the first two records are ever decoded: two decoders that agree on them
      give the same digest, whatever they do on the rest. */
  lemma UsernamesReadsOnlyShownRecords(processes: string, u1: string -> Option<string>, u2: string -> Option<string>)
    requires forall i :: 0 <= i < ShownCount(|Records(processes)|) ==> u1(Records(processes)[i]) == u2(Records(processes)[i])
    ensures Usernames(processes, u1) == Usernames(processes, u2)
  {
    if processes != "" {
      var recs := Records(processes);
      var shown := recs[..ShownCount(|recs|)];
      assert forall i :: 0 <= i < |shown| ==> shown[i] == recs[i];
      var r1 := ParseNames(shown, u1);
      var r2 := ParseNames(shown, u2);
      if r1.Success? {
        assert r2.Success?;
        assert r1.value == r2.value;
      } else {
        assert r2.Failure?;
        var i1, i2 := r1.error, r2.error;
        assert u2(shown[i1]).None?;
        assert u1(shown[i2]).None?;
        assert i1 == i2;
      }
    }
  }

  /** A single record shows exactly its username. */
  lemma UsernamesOneRecord(record: string, usernameOf: string -> Option<string>, name: string)
    requires record != "" && RecordDelimiter !in record
    requires usernameOf(record) == Some(name)
    ensures Usernames(record, usernameOf) == Success(name)
  {
    SplitNoSeparator(record, RecordDelimiter);
    UsernamesValue(record, usernameOf, [name]);
  }

  /** Exactly two records show both usernames and no marker. */
  lemma UsernamesTwoRecords(a: string, b: string, usernameOf: string -> Option<string>, u: string, v: string)
    requires RecordDelimiter !in a && RecordDelimiter !in b
    requires usernameOf(a) == Some(u) && usernameOf(b) == Some(v)
    ensures Usernames(a + [RecordDelimiter] + b, usernameOf) == Success(u + NameSeparator + v)
  {
    var processes := a + [RecordDelimiter] + b;
    SplitFirst(a, RecordDelimiter, b);
    SplitNoSeparator(b, RecordDelimiter);
    assert Records(processes) == [a, b];
    UsernamesValue(processes, usernameOf, [u, v]);
    assert Join([u, v], NameSeparator) == u + NameSeparator + Join([v], NameSeparator);
  }

  /** Three or more records show the first two usernames and the marker; nothing
      after the second newline is decoded, so a malformed later record is harmless. */
  lemma UsernamesManyRecords(a: string, b: string, rest: string, usernameOf: string -> Option<string>, u: string, v: string)
    requires RecordDelimiter !in a && RecordDelimiter !in b
    requires usernameOf(a) == Some(u) && usernameOf(b) == Some(v)
    ensures Usernames(a + [RecordDelimiter] + b + [RecordDelimiter] + rest, usernameOf)
         == Success(u + NameSeparator + v + MoreMarker)
  {
    var tail := b + [RecordDelimiter] + rest;
    var processes := a + [RecordDelimiter] + tail;
    assert a + [RecordDelimiter] + b + [RecordDelimiter] + rest == processes;
    SplitFirst(a, RecordDelimiter, tail);
    SplitFirst(b, RecordDelimiter, rest);
    var recs := Records(processes);
    assert recs == [a, b] + Split(rest, RecordDelimiter);
    assert recs[0] == a && recs[1] == b && |recs| >= 3;
    UsernamesValue(processes, usernameOf, [u, v]);
    assert Join([u, v], NameSeparator) == u + NameSeparator + Join([v], NameSeparator);
  }

  /** One record followed by a newline is two records, the second empty; the digest
      then also needs the empty string to decode, which `json.loads` refuses. */
  lemma UsernamesOneRecordTrailingNewline(record: string, usernameOf: string -> Option<string>)
    requires RecordDelimiter !in record
    ensures Usernames(record + [RecordDelimiter], usernameOf).Success?
        <==> usernameOf(record).Some? && usernameOf("").Some?
  {
    TrailingNewlineRecord(record);
    SplitNoSeparator(record, RecordDelimiter);
    assert Records(record + [RecordDelimiter]) == [record, ""];
  }

  /** The exact marker rule: a successful digest ends in "..." iff the field holds
      more than two records or the last displayed username itself ends in "...". */
  lemma MarkerExactRule(processes: string, usernameOf: string -> Option<string>, names: seq<string>)
    requires processes != ""
    requires |names| == ShownCount(|Records(processes)|)
    requires forall i :: 0 <= i < |names| ==> usernameOf(Records(processes)[i]) == Some(names[i])
    ensures Usernames(processes, usernameOf).Success?
    ensures EndsWith(Usernames(processes, usernameOf).value, MoreMarker)
        <==> |Records(processes)| > ShownLimit || EndsWith(names[|names| - 1], MoreMarker)
  {
    UsernamesValue(processes, usernameOf, names);
    var joined := Join(names, NameSeparator);
    if |Records(processes)| > ShownLimit {
      assert (joined + MoreMarker)[|joined|..] == MoreMarker;
    } else {
      assert joined + "" == joined;
      JoinEndsWithMarker(names);
    }
  }

  /** One or two names joined with ", " end in "..." iff the last name does: the
      separator's space sits within the last three characters otherwise. */
  lemma JoinEndsWithMarker(names: seq<string>)
    requires 1 <= |names| <= 2
    ensures EndsWith(Join(names, NameSeparator), MoreMarker) <==> EndsWith(names[|names| - 1], MoreMarker)
  {
    if |names| == 2 {
      var last := names[1];
      var j := Join(names, NameSeparator);
      assert names[1..] == [last];
      assert j == names[0] + NameSeparator + last;
      if |last| >= 3 {
        assert j[|j| - 3..] == last[|last| - 3..];
      } else if |j| >= 3 {
        assert j[|j| - |last| - 1] == ' ';
        assert j[|j| - 3..][2 - |last|] == ' ';
        assert MoreMarker[2 - |last|] == '.';
      }
    }
  }

  /** When no displayed username contains a dot, the digest ends in "..." exactly
      when the field holds more than two records. */
  lemma MarkerIffMoreThanShown(processes: string, usernameOf: string -> Option<string>)
    requires processes != ""
    requires forall i :: 0 <= i < ShownCount(|Records(processes)|) ==>
      usernameOf(Records(processes)[i]).Some? && '.' !in usernameOf(Records(processes)[i]).value
    ensures Usernames(processes, usernameOf).Success?
    ensures EndsWith(Usernames(processes, usernameOf).value, MoreMarker) <==> |Records(processes)| > ShownLimit
  {
    var recs := Records(processes);
    var shown := recs[..ShownCount(|recs|)];
    assert forall i :: 0 <= i < |shown| ==> shown[i] == recs[i];
    var names := ParseNames(shown, usernameOf).value;
    UsernamesValue(processes, usernameOf, names);
    assert forall i :: 0 <= i < |names| ==> '.' !in names[i] by {
      forall i | 0 <= i < |names|
        ensures '.' !in names[i]
      {
        assert usernameOf(recs[i]) == Some(names[i]);
      }
    }
    NoDotInJoin(names, NameSeparator);
    NoDotNoMarker(Join(names, NameSeparator));
  }

  /** A join of dot-free names with a dot-free separator is dot-free. */
  lemma {:induction false} NoDotInJoin(names: seq<string>, sep: string)
    requires '.' !in sep
    requires forall i :: 0 <= i < |names| ==> '.' !in names[i]
    ensures '.' !in Join(names, sep)
  {
    if '.' in Join(names, sep) {
      JoinCharacters(names, sep, '.');
    }
  }

  /** A dot-free string does not end with the marker. */
  lemma NoDotNoMarker(s: string)
    requires '.' !in s
    ensures !EndsWith(s, MoreMarker)
  {
    if |s| >= 3 {
      assert s[|s| - 1] in s;
      assert s[|s| - 3..][2] == s[|s| - 1];
    }
  }

  /** A username that itself ends in "..." cannot be told apart from truncation:
      two records can render exactly like three or more. */
  lemma MarkerIsAmbiguous(a: string, b: string, c: string, rest: string,
                          usernameOf: string -> Option<string>, u: string, v: string)
    requires RecordDelimiter !in a && RecordDelimiter !in b && RecordDelimiter !in c
    requires usernameOf(a) == Some(u)
    requires usernameOf(b) == Some(v + MoreMarker) && usernameOf(c) == Some(v)
    ensures Usernames(a + [RecordDelimiter] + b, usernameOf)
         == Usernames(a + [RecordDelimiter] + c + [RecordDelimiter] + rest, usernameOf)
  {
    UsernamesTwoRecords(a, b, usernameOf, u, v + MoreMarker);
    UsernamesManyRecords(a, c, rest, usernameOf, u, v);
    assert u + NameSeparator + (v + MoreMarker) == u + NameSeparator + v + MoreMarker;
  }

  // ----- Memory usage -----

  /** `memory_used / memory_total` raised `ZeroDivisionError`. */
  datatype FormatError = DivisionByZero

  /** `'{:d} / {:d} MB ({:.0f}%)'.format(used, total, used / total * 100)`.
      `percent(used, total)` stands for the rendered percentage and is consulted only
      when the division is defined. */
  function FormatMemoryUsage(used: int, total: int, percent: (int, int) -> string): (r: Result<string, FormatError>)
    ensures r.Failure? <==> total == 0
    ensures r.Success? ==> StartsWith(r.value, IntToDecimal(used) + " / " + IntToDecimal(total) + " MB (")
    ensures r.Success? ==> EndsWith(r.value, "%)")
  {
    if total == 0 then Failure(DivisionByZero)
    else Success(IntToDecimal(used) + " / " + IntToDecimal(total) + " MB (" + percent(used, total) + "%)")
  }

  /** Reads the used and total amounts back from a rendered memory-usage string. */
  function ParseMemoryUsage(s: string): Option<(int, int)>
  {
    match ReadInt(s)
    case None => None
    case Some((used, rest)) =>
      if !StartsWith(rest, " / ") then None
      else
        match ReadInt(rest[3..])
        case None => None
        case Some((total, tail)) =>
          if StartsWith(tail, " MB (") && EndsWith(tail, "%)") then Some((used, total)) else None
  }

  /** The rendered string determines both amounts, whatever the percentage renders as. */
  lemma MemoryUsageRoundTrip(used: int, total: int, percent: (int, int) -> string)
    requires total != 0
    ensures FormatMemoryUsage(used, total, percent).Success?
    ensures ParseMemoryUsage(FormatMemoryUsage(used, total, percent).value) == Some((used, total))
  {
    var pct := percent(used, total);
    var du, dt := IntToDecimal(used), IntToDecimal(total);
    var tail := " MB (" + pct + "%)";
    var rest := " / " + dt + tail;
    var s := FormatMemoryUsage(used, total, percent).value;
    UsageLayout(du, dt, pct);
    ReadIntOfDecimal(used, rest);
    ReadIntOfDecimal(total, tail);
    ParseMemoryUsageOf(s, used, rest, total, tail);
  }

  /** Where the pieces of a rendered memory-usage string sit. */
  lemma UsageLayout(du: string, dt: string, pct: string)
    ensures var tail := " MB (" + pct + "%)";
      var rest := " / " + dt + tail;
      && du + " / " + dt + " MB (" + pct + "%)" == du + rest
      && rest[0] == ' ' && StartsWith(rest, " / ") && rest[3..] == dt + tail
      && tail[0] == ' ' && StartsWith(tail, " MB (") && EndsWith(tail, "%)")
  {
    var tail := " MB (" + pct + "%)";
    var rest := " / " + dt + tail;
    assert rest[..3] == " / ";
    assert tail[..5] == " MB (";
    assert tail[|tail| - 2..] == "%)";
  }

  lemma ParseMemoryUsageOf(s: string, used: int, rest: string, total: int, tail: string)
    requires ReadInt(s) == Some((used, rest))
    requires StartsWith(rest, " / ") && ReadInt(rest[3..]) == Some((total, tail))
    requires StartsWith(tail, " MB (") && EndsWith(tail, "%)")
    ensures ParseMemoryUsage(s) == Some((used, total))
  {
  }

  /** `GPUInfoInline.memory_usage`: the memory column of the per-server inline table. */
  function InlineMemoryUsage(info: GpuInfo, percent: (int, int) -> string): (r: Result<string, FormatError>)
    ensures r.Failure? <==> info.memoryTotal == 0
    ensures r.Success? ==> StartsWith(r.value, IntToDecimal(info.memoryUsed) + " / " + IntToDecimal(info.memoryTotal) + " MB (")
  {
    FormatMemoryUsage(info.memoryUsed, info.memoryTotal, percent)
  }

  /** `GPUInfoAdmin.memory_usage`: the memory column of the GPU list page. */
  function AdminMemoryUsage(info: GpuInfo, percent: (int, int) -> string): (r: Result<string, FormatError>)
    ensures r.Failure? <==> info.memoryTotal == 0
    ensures r.Success? ==> StartsWith(r.value, IntToDecimal(info.memoryUsed) + " / " + IntToDecimal(info.memoryTotal) + " MB (")
  {
    FormatMemoryUsage(info.memoryUsed, info.memoryTotal, percent)
  }

  /** Both memory columns of a snapshot with non-zero total read back as its used
      and total memory. */
  lemma MemoryColumnsReadBack(info: GpuInfo, percent: (int, int) -> string)
    requires info.memoryTotal != 0
    ensures InlineMemoryUsage(info, percent).Success?
    ensures ParseMemoryUsage(InlineMemoryUsage(info, percent).value) == Some((info.memoryUsed, info.memoryTotal))
    ensures AdminMemoryUsage(info, percent).Success?
    ensures ParseMemoryUsage(AdminMemoryUsage(info, percent).value) == Some((info.memoryUsed, info.memoryTotal))
  {
    MemoryUsageRoundTrip(info.memoryUsed, info.memoryTotal, percent);
  }

  /** The two copies of the memory formatter render every snapshot identically. */
  lemma MemoryUsageCopiesAgree(info: GpuInfo, percent: (int, int) -> string)
    ensures InlineMemoryUsage(info, percent) == AdminMemoryUsage(info, percent)
  {
  }
}

=== FILE: decimal.dfy ===
/** Python's `'{:d}'` rendering of an integer in base ten, and a reader that
    recovers the integer from the front of a string. */
module Decimal {
  import opened Wrappers

  predicate IsDigit(ch: char)
  {
    '0' <= ch <= '9'
  }

  predicate AllDigits(s: string)
  {
    forall i :: 0 <= i < |s| ==> IsDigit(s[i])
  }

  function DigitValue(ch: char): (d: nat)
    requires IsDigit(ch)
    ensures d < 10
  {
    ch as int - '0' as int
  }

  function DigitChar(d: nat): (ch: char)
    requires d < 10
    ensures IsDigit(ch) && DigitValue(ch) == d
  {
    ('0' as int + d) as char
  }

  /** The base-ten digits of `n`, most significant first, without leading zeros. */
  function NatToDecimal(n: nat): (s: string)
    ensures |s| >= 1 && AllDigits(s)
    ensures s[0] == '0' <==> n == 0
    decreases n
  {
    if n < 10 then [DigitChar(n)]
    else NatToDecimal(n / 10) + [DigitChar(n % 10)]
  }

  /** The number a string of digits denotes. */
  function DigitsValue(s: string): nat
    requires AllDigits(s)
  {
    if |s| == 0 then 0
    else DigitsValue(s[..|s| - 1]) * 10 + DigitValue(s[|s| - 1])
  }

  /** `'{:d}'.format(n)`: a minus sign for negative numbers, then the digits of |n|. */
  function IntToDecimal(n: int): (s: string)
    ensures |s| >= 1
    ensures s[0] == '-' <==> n < 0
    ensures n >= 0 ==> AllDigits(s)
    ensures n < 0 ==> |s| >= 2 && AllDigits(s[1..])
  {
    if n < 0 then "-" + NatToDecimal(-n) else NatToDecimal(n)
  }

  /** Length of the longest all-digit prefix of `s`. */
  function DigitRun(s: string): (k: nat)
    ensures k <= |s| && AllDigits(s[..k])
    ensures k < |s| ==> !IsDigit(s[k])
    decreases |s|
  {
    if |s| == 0 || !IsDigit(s[0]) then 0
    else
      var k := 1 + DigitRun(s[1..]);
      assert s[..k] == [s[0]] + s[1..][..k - 1];
      k
  }

  /** Reads a non-empty run of digits from the front of `s`; yields its value and
      the unread remainder. */
  function ReadNat(s: string): (r: Option<(nat, string)>)
    ensures r.Some? ==> |r.value.1| < |s| && r.value.1 == s[|s| - |r.value.1|..]
  {
    var k := DigitRun(s);
    if k == 0 then None else Some((DigitsValue(s[..k]), s[k..]))
  }

  /** Reads an optional minus sign and a non-empty run of digits from the front of
      `s`; yields the integer and the unread remainder. */
  function ReadInt(s: string): Option<(int, string)>
  {
    if |s| > 0 && s[0] == '-' then
      match ReadNat(s[1..])
      case None => None
      case Some((m, rest)) => Some((-(m as int), rest))
    else
      match ReadNat(s)
      case None => None
      case Some((m, rest)) => Some((m as int, rest))
  }

  /** The digits of `n` denote `n`. */
  lemma {:induction false} DecimalValue(n: nat)
    ensures DigitsValue(NatToDecimal(n)) == n
    decreases n
  {
    if n >= 10 {
      var s := NatToDecimal(n);
      DecimalValue(n / 10);
      assert s[..|s| - 1] == NatToDecimal(n / 10);
    }
  }

  /** The digit run of an all-digit string followed by a non-digit is that string. */
  lemma {:induction false} DigitRunOf(d: string, rest: string)
    requires AllDigits(d)
    requires |rest| == 0 || !IsDigit(rest[0])
    ensures DigitRun(d + rest) == |d|
    decreases |d|
  {
    if |d| > 0 {
      assert (d + rest)[1..] == d[1..] + rest;
      DigitRunOf(d[1..], rest);
    } else {
      assert d + rest == rest;
    }
  }

  /** Reading a run of digits followed by a non-digit yields its value and the rest. */
  lemma ReadNatOfDigits(d: string, rest: string)
    requires |d| >= 1 && AllDigits(d)
    requires |rest| == 0 || !IsDigit(rest[0])
    ensures ReadNat(d + rest) == Some((DigitsValue(d), rest))
  {
    DigitRunOf(d, rest);
    assert (d + rest)[..|d|] == d;
    assert (d + rest)[|d|..] == rest;
  }

  /** Where a minus sign leads, the reader negates what follows. */
  lemma ReadIntMinus(s: string, m: nat, rest: string)
    requires |s| > 0 && s[0] == '-' && ReadNat(s[1..]) == Some((m, rest))
    ensures ReadInt(s) == Some((-(m as int), rest))
  {
  }

  /** Where no minus sign leads, the reader reads a natural number. */
  lemma ReadIntPlain(s: string, m: nat, rest: string)
    requires |s| > 0 && s[0] != '-' && ReadNat(s) == Some((m, rest))
    ensures ReadInt(s) == Some((m as int, rest))
  {
  }

  /** Where the pieces of a signed rendering sit. */
  lemma MinusLayout(d: string, rest: string)
    ensures ("-" + d + rest)[0] == '-'
    ensures ("-" + d + rest)[1..] == d + rest
  {
  }

  /** Reading back a rendered integer recovers it, as long as no digit follows it. */
  lemma ReadIntOfDecimal(n: int, rest: string)
    requires |rest| == 0 || !IsDigit(rest[0])
    ensures ReadInt(IntToDecimal(n) + rest) == Some((n, rest))
  {
    if n < 0 {
      var d := NatToDecimal(-n);
      DecimalValue(-n);
      MinusLayout(d, rest);
      ReadNatOfDigits(d, rest);
      ReadIntMinus("-" + d + rest, DigitsValue(d), rest);
    } else {
      var d := NatToDecimal(n);
      DecimalValue(n);
      ReadNatOfDigits(d, rest);
      ReadIntPlain(d + rest, DigitsValue(d), rest);
    }
  }
}

=== FILE: text.dfy ===
/** Python's `str.split(sep)` for a single-character separator and `sep.join(parts)`,
    on strings as sequences of characters, with the lemmas relating the two. */
module Text {

  /** Number of occurrences of `c` in `s`. */
  function Occurrences(s: string, c: char): nat
  {
    if |s| == 0 then 0
    else (if s[0] == c then 1 else 0) + Occurrences(s[1..], c)
  }

  predicate StartsWith(s: string, prefix: string)
  {
    |prefix| <= |s| && s[..|prefix|] == prefix
  }

  predicate EndsWith(s: string, suffix: string)
  {
    |suffix| <= |s| && s[|s| - |suffix|..] == suffix
  }

  /** `s.split(sep)`: the maximal separator-free pieces between occurrences of `sep`,
      in order. There is always at least one piece; the empty string gives `[""]`. */
  function Split(s: string, sep: char): (parts: seq<string>)
    ensures |parts| >= 1
    ensures forall i :: 0 <= i < |parts| ==> sep !in parts[i]
    decreases |s|
  {
    if |s| == 0 then [""]
    else
      var rest := Split(s[1..], sep);
      if s[0] == sep then [""] + rest
      else [[s[0]] + rest[0]] + rest[1..]
  }

  /** `sep.join(parts)`: starts with the first piece and ends with the last, with
      `sep` only between neighbouring pieces, never before the first or after the last. */
  function Join(parts: seq<string>, sep: string): (s: string)
    ensures |parts| > 0 ==> StartsWith(s, parts[0])
    ensures |parts| > 0 ==> EndsWith(s, parts[|parts| - 1])
    ensures |parts| == 0 ==> s == ""
  {
    if |parts| == 0 then ""
    else if |parts| == 1 then parts[0]
    else parts[0] + sep + Join(parts[1..], sep)
  }

  /** Splitting yields one more piece than there are separators. */
  lemma {:induction false} SplitCount(s: string, sep: char)
    ensures |Split(s, sep)| == Occurrences(s, sep) + 1
    decreases |s|
  {
    if |s| > 0 {
      SplitCount(s[1..], sep);
    }
  }

  /** Gluing a string onto the front of the first piece glues it onto the front of the join. */
  lemma JoinExtendHead(x: string, parts: seq<string>, sep: string)
    requires |parts| >= 1
    ensures Join([x + parts[0]] + parts[1..], sep) == x + Join(parts, sep)
  {
    var q := [x + parts[0]] + parts[1..];
    assert q[1..] == parts[1..];
  }

  /** Joining the pieces back with the separator gives the original string: split
      loses nothing and keeps the order of the pieces. */
  lemma {:induction false} SplitJoin(s: string, sep: char)
    ensures Join(Split(s, sep), [sep]) == s
    decreases |s|
  {
    if |s| > 0 {
      var rest := Split(s[1..], sep);
      SplitJoin(s[1..], sep);
      if s[0] == sep {
        var parts := [""] + rest;
        assert parts[1..] == rest;
        assert Join(parts, [sep]) == "" + [sep] + Join(rest, [sep]);
        assert s == [s[0]] + s[1..];
      } else {
        JoinExtendHead([s[0]], rest, [sep]);
        assert s == [s[0]] + s[1..];
      }
    }
  }

  /** A separator-free string is a single piece. */
  lemma {:induction false} SplitNoSeparator(s: string, sep: char)
    requires sep !in s
    ensures Split(s, sep) == [s]
    decreases |s|
  {
    if |s| > 0 {
      assert s[0] in s;
      assert forall ch :: ch in s[1..] ==> ch in s;
      SplitNoSeparator(s[1..], sep);
      assert s == [s[0]] + s[1..];
    }
  }

  /** A separator-free head followed by the separator becomes the first piece,
      whatever follows it. */
  lemma {:induction false} SplitFirst(a: string, sep: char, rest: string)
    requires sep !in a
    ensures Split(a + [sep] + rest, sep) == [a] + Split(rest, sep)
    decreases |a|
  {
    var s := a + [sep] + rest;
    if |a| == 0 {
      assert s[1..] == rest;
    } else {
      assert a[0] in a;
      assert forall ch :: ch in a[1..] ==> ch in a;
      SplitFirst(a[1..], sep, rest);
      assert s[1..] == a[1..] + [sep] + rest;
      assert a == [a[0]] + a[1..];
    }
  }

  /** A trailing separator adds a trailing empty piece. */
  lemma {:induction false} SplitTrailingSeparator(t: string, sep: char)
    ensures Split(t + [sep], sep) == Split(t, sep) + [""]
    decreases |t|
  {
    var s := t + [sep];
    if |t| == 0 {
      assert s[1..] == "";
    } else {
      assert s[1..] == t[1..] + [sep];
      SplitTrailingSeparator(t[1..], sep);
    }
  }

  /** The other direction of the round trip: separator-free pieces joined with the
      separator split back into exactly those pieces. */
  lemma {:induction false} JoinSplit(parts: seq<string>, sep: char)
    requires |parts| >= 1
    requires forall i :: 0 <= i < |parts| ==> sep !in parts[i]
    ensures Split(Join(parts, [sep]), sep) == parts
    decreases |parts|
  {
    if |parts| == 1 {
      SplitNoSeparator(parts[0], sep);
    } else {
      JoinSplit(parts[1..], sep);
      SplitFirst(parts[0], sep, Join(parts[1..], [sep]));
      assert [parts[0]] + parts[1..] == parts;
    }
  }

  /** Every character of a join comes from the separator or from one of the pieces. */
  lemma {:induction false} JoinCharacters(parts: seq<string>, sep: string, ch: char)
    requires ch in Join(parts, sep)
    ensures ch in sep || exists i :: 0 <= i < |parts| && ch in parts[i]
    decreases |parts|
  {
    if |parts| > 1 {
      var tail := Join(parts[1..], sep);
      assert Join(parts, sep) == parts[0] + sep + tail;
      if ch !in parts[0] && ch !in sep {
        assert ch in tail;
        JoinCharacters(parts[1..], sep, ch);
        var i :| 0 <= i < |parts[1..]| && ch in parts[1..][i];
        assert ch in parts[i + 1];
      }
    } else if |parts| == 1 {
      assert ch in parts[0];
    }
  }
}

=== FILE: wrappers.dfy ===
/** Failure-carrying datatypes used to model Python exceptions as values. */
module Wrappers {

  /** An optional value: `None` stands for "absent" or "could not be produced". */
  datatype Option<+T> = None | Some(value: T)

  /** The outcome of an operation that may raise: `Failure` carries what went wrong. */
  datatype Result<+R, +E> = Success(value: R) | Failure(error: E)
}
